=== FILE: README.md ===
# Live2D viewer offline cache worker, modelled in Dafny

The viewer's service worker (`sw.js`) keeps Live2D model files, scripts and
stylesheets available offline. The worker does the following:

- It derives a list of 1089 candidate paths from its configuration. That is 9
  core paths plus 27 guessed paths for each of 40 models.
- On install, it precaches the list. The core files go through one
  all-or-nothing `cache.addAll`. The model files are fetched one by one, and
  only the 200 responses are counted and stored.
- On activate, it deletes every cache but its own (`live2d-cache-v1`).
- It answers same-origin GET requests with one of three strategies, chosen by
  substring and suffix tests on the path:
  - cache-first for model resources;
  - stale-while-revalidate for `.js` and `.css`;
  - network-first for everything else.
- It handles two messages. CLEAR_CACHES deletes its cache and notifies every
  client. CACHE_MODEL precaches one model and reports the tally to every
  client.

The model is pure, apart from the loops. Cache Storage is a value
(`Store.CacheStorage`), and its names are kept in creation order, because
`caches.match` searches in that order. A request's network outcome is an
input: a response of any status, or a thrown fetch. The handlers that fetch
many URLs take a function from URL to outcome. Each strategy returns:

- the response handed to `respondWith` (`None` for `undefined`);
- the storage once the writes it started have landed;
- whether it asked the network.

Modules:

- `Options`: the option type.
- `Strings`: `startsWith`, `endsWith`, `includes` and the splitting facts about them.
- `Store`: the browser's Cache Storage (`caches.open`, `cache.put`,
  `cache.match`, `caches.match`, `caches.delete`).
- `Paths`: the configuration constants and path generation.
- `Classify`: the model-file patterns, the static-file test, install's two
  filters and the fetch router.
- `Strategies`: cache-first, network-first, stale-while-revalidate and the
  fetch dispatcher.
- `Lifecycle`: `cacheResource`, the counting loop, install, activate and the
  message handler.

## Model

| member | source | states |
|---|---|---|
| Paths.Digit | sw.js:64-65 | the texture index is printed as the single decimal digit whose value is the index |
| Paths.ModelFiles | sw.js:56-60 | the model, moc and physics files come first, in that order |
| Paths.ModelCachePaths | sw.js:53-80 | one model gives 27 paths, each under `MODEL_BASE_PATH + id + "/"`: the 3 model files, then textures 00-09 by index, then the 14 motions in list order |
| Paths.ModelBlocks | sw.js:99-101 | the per-model lists of the ids, concatenated, have 27 entries per id |
| Paths.CachePaths | sw.js:83-104 | the candidate list is the 9 core paths followed by the model blocks, with matching length |
| Paths.AllCachePaths | sw.js:107 | the worker's own candidate list has 1089 entries |
| Paths.ModelBlocksIndex | sw.js:99-101 | entry `27*j + k` of the concatenation is entry `k` of model `j`'s list |
| Paths.ModelBlocksMembers | sw.js:99-101 | every concatenated path was generated for one of the ids |
| Paths.MotionsDistinct | sw.js:69-73 | the 14 motion names are pairwise different |
| Paths.ModelPathPairDistinct | sw.js:53-80 | two positions of one model's list hold different paths |
| Paths.ModelPathsDistinct | sw.js:53-80 | one model's 27 paths are pairwise different, so its total counts 27 different resources |
| Classify.IsModelPath | sw.js:110-124 | a path is a model resource exactly when one of the 13 patterns (six Live2D file suffixes, three directory names, four image and sound extensions) occurs anywhere in it, case-sensitively; the same test serves the install filter (sw.js:172-174) and the router (sw.js:226-228) |
| Classify.IsStaticPath | sw.js:231-233 | a path is a static resource exactly when it ends in `.js` or `.css` |
| Classify.IsCoreFile | sw.js:157-162 | install's core filter keeps a path exactly when it ends in `.js` or `.css`, or is `/` or `/index.html` |
| Classify.Route | sw.js:215-245 | no response for a non-GET or cross-origin request; otherwise cache-first exactly for a model-pattern match (even a `.js`/`.css` one), stale-while-revalidate exactly for other `.js`/`.css` paths, network-first for the rest |
| Classify.Filter | sw.js:157-174 | a filter keeps exactly the elements satisfying the test, and no more of them than there were |
| Classify.FilterAppend | sw.js:157-174 | filtering a concatenation filters each part, in order |
| Classify.FilterKeepsAll | sw.js:157-174 | a filter that every element passes returns the list unchanged |
| Classify.FilterDropsAll | sw.js:157-174 | a filter that no element passes returns the empty list |
| Classify.ModelSuffixPath | sw.js:110-124 | a path under `/model/` ending in a generated suffix matches a model pattern and is not a core file |
| Classify.GeneratedPathsAreModelFiles | sw.js:53-80 | every generated model path matches a model pattern and is never a core file |
| Classify.CodePathNotModelPath | sw.js:110-124 | a directory-plus-file path with the stated absent characters matches no model pattern |
| Classify.PagePathsAreNotModelPaths | sw.js:85-86 | `/` and `/index.html` match no model pattern |
| Classify.PlainCodePathNotModelPath | sw.js:110-124 | a code file name without `w` cannot contain `.wav`, so its path matches no pattern |
| Classify.PixiPathIsNotModelPath | sw.js:88 | the PixiJS script matches no model pattern |
| Classify.CorePathIsNotModelPath | sw.js:89 | the Cubism core script matches no model pattern |
| Classify.FrameworkPathIsNotModelPath | sw.js:90 | the Cubism framework script matches no model pattern |
| Classify.BindingPathIsNotModelPath | sw.js:91 | the Cubism PixiJS binding matches no model pattern |
| Classify.ViewerPathIsNotModelPath | sw.js:92 | the viewer script matches no model pattern |
| Classify.MainPathIsNotModelPath | sw.js:93 | the main script matches no model pattern |
| Classify.StylePathIsNotModelPath | sw.js:95 | the stylesheet matches no model pattern |
| Classify.FrameworkFileHasNoWav | sw.js:90 | the framework file name does not contain `.wav`, although it holds all its letters |
| Classify.CorePathsAreNotModelPaths | sw.js:84-96 | none of the 9 core paths matches a model pattern |
| Classify.CorePathKinds | sw.js:157-162 | the 7 code paths are static `.js`/`.css` paths, the 2 page paths are not, and all 9 pass the core-file filter |
| Classify.ModelBlocksAreModelFiles | sw.js:172-174 | every model-block path passes the model filter and fails the core filter |
| Classify.InstallFiltersPartition | sw.js:157-174 | every candidate passes exactly one of install's two filters: the two lists are disjoint and together cover the candidates |
| Classify.CoreFilter | sw.js:157-162 | the core filter returns exactly the 9 core paths, in order |
| Classify.ModelFilter | sw.js:172-174 | the model filter returns exactly the model blocks, in order |
| Classify.RouteOfCachedPath | sw.js:219-244 | among precached paths, exactly the generated model paths go cache-first, exactly the 7 code paths go stale-while-revalidate, exactly the 2 page paths go network-first |
| Store.Open | sw.js:152 | `caches.open` creates the cache (listed last) only when it is missing, and keeps the storage well formed |
| Store.Lookup | sw.js:304 | `cache.match` finds an entry exactly when the named cache holds the URL |
| Store.Put | sw.js:131 | after `cache.put` the URL maps to the response, no other URL or cache changes, the creation order is the one `caches.open` leaves (a new cache listed last), and the storage stays well formed |
| Store.Without | sw.js:203 | removing a name keeps every other name, and without repeats when there were none |
| Store.Delete | sw.js:203 | `caches.delete` reports whether the cache existed and removes it alone |
| Store.MatchIn | sw.js:249 | the creation-order search gives nothing exactly when no listed cache holds the URL, else the entry of the first listed cache that holds it |
| Store.Match | sw.js:249 | `caches.match` gives nothing exactly when no cache holds the URL, else the entry of the earliest-created cache that holds it |
| Store.MatchInWithout | sw.js:203 | after a cache is taken out of the creation order, the search in that order finds exactly what it would have found had the cache held nothing: the other caches keep their relative order |
| Store.MatchInOnly | sw.js:286 | when one cache alone holds the URL, the search returns that cache's entry |
| Store.MatchAfterPut | sw.js:249-260 | after storing a URL no cache held, `caches.match` returns exactly the stored response |
| Strategies.StoreIfOk | sw.js:258-261 | the strategies store a fetched response exactly when its status is 200, and touch nothing else: every cache survives, other caches and entries keep their contents, and the creation order changes at most by the worker's cache being listed last when new |
| Strategies.CacheFirst | sw.js:248-272 | a hit returns `caches.match`'s answer, the entry of the earliest-created cache holding the URL, with no fetch and no write; on a miss the network response is returned as is and stored exactly when its status is 200, the storage otherwise unchanged; a thrown fetch gives the 408 answer and leaves the storage unchanged |
| Strategies.NetworkFirst | sw.js:275-297 | the network is always asked; its response is returned and stored only when 200; a thrown fetch gives the entry of the earliest-created cache holding the URL, else the 408 answer, without writing |
| Strategies.StaleWhileRevalidate | sw.js:300-319 | the worker's cache is created, listed last, if missing; the answer is its entry, else the network's response, else nothing; the network is always asked, and exactly a 200 response is written |
| Strategies.HandleFetch | sw.js:215-245 | no response exactly for non-GET or cross-origin requests; otherwise the routed strategy's outcome, which only ever writes a 200 network response under the request's URL |
| Strategies.CacheFirstThenHit | sw.js:248-262 | after a cache-first hit or a stored 200, the next request for that URL gets the same response with no network use |
| Strategies.RevalidatedCopyServedNext | sw.js:300-319 | the 200 response fetched while a stale copy was served is what the next request is answered with |
| Strategies.NetworkFirstFallsBackToStored | sw.js:275-292 | a 200 response network-first stored is its answer when the network later fails, if no other cache holds the URL |
| Strategies.HandleFetchKeepsOnlyOk | sw.js:215-319 | if every stored response has status 200, that still holds after any handled request |
| Lifecycle.ResolveAll | sw.js:129-131 | each path is resolved against the origin, in order |
| Lifecycle.ResolvedMembers | sw.js:129-131 | the URL of every listed path is among the resolved URLs |
| Lifecycle.CacheResource | sw.js:127-142 | `cacheResource` returns true exactly for a 200 response, which it then stores; otherwise it stores nothing |
| Lifecycle.SuccessCount | sw.js:176-179 | the success count never exceeds the number of URLs |
| Lifecycle.SuccessCountFull | sw.js:176-179 | the count equals the total exactly when every fetch gives 200 |
| Lifecycle.CacheEach | sw.js:176-185 | the loop's count equals the number of URLs answered with 200, at most their number; the worker's cache then holds exactly those responses on top of its old entries; every cache survives, no other cache changes, and the creation order changes at most by the worker's cache being listed last |
| Lifecycle.PutAll | sw.js:165 | every listed URL is stored with its response, no other entry or cache changes, and the creation order changes at most by the worker's cache being listed last |
| Lifecycle.AddAll | sw.js:164-169 | `addAll` stores all responses when every one is 2xx and not 206, and nothing otherwise |
| Lifecycle.Install | sw.js:145-191 | the worker's cache exists afterwards; the core files are stored exactly when `addAll` accepts them all; every model file answered with 200 is stored; nothing else in the worker's cache changes (a URL keeps its old entry unless a model fetch answered 200 or `addAll` stored the core files); the tally counts the 200 answers and is at most the total, which is 27 per model; every cache that existed survives, no other cache changes, and the creation order is the one opening the worker's cache leaves |
| Lifecycle.ModelFileTotal | sw.js:172-174 | the worker's own model list gives 1080 model files |
| Lifecycle.Activate | sw.js:197-206 | afterwards exactly the worker's cache remains, if it existed, with its contents unchanged |
| Lifecycle.Broadcast | sw.js:332-335 | one post per client, in client order, all with the same message |
| Lifecycle.BroadcastReachesEachOnce | sw.js:332-335 | with no client repeated, each client gets exactly one post and nobody else gets one |
| Lifecycle.ClearCaches | sw.js:326-337 | only the worker's cache is deleted and taken out of the creation order, others keep their contents and order, and every client is sent CACHES_CLEARED once, in order |
| Lifecycle.CacheModel | sw.js:341-369 | the worker's cache exists afterwards and differs from before exactly at the model's paths answered with 200, which hold those responses; every cache that existed survives, no other cache changes, and the creation order is the one opening the worker's cache leaves; every client is told the model id, the number of 200 answers and the total 27 |
| Lifecycle.HandleMessage | sw.js:322-370 | CLEAR_CACHES deletes the worker's cache only, leaves every other cache and its place in the creation order as it was and notifies every client; CACHE_MODEL with a non-empty model id stores exactly the model's paths answered with 200, keeps every existing cache, changes no other cache, lists a newly created worker's cache last and tells every client the id, the count and 27; any other message, or one without data or a model id, changes nothing and posts nothing |

## Left out

- `live2d_3/js/main.js` registers the worker and draws the models. It is not part of this model.
- URL parsing is not modelled. A request carries its origin and pathname already split, and `Lifecycle.Resolve` joins an origin and a path without percent-encoding (the base path holds a space).
- Concurrency is not modelled. Each strategy's result shows the storage after every write it started, although the source does not await the cache-first and network-first `cache.put` calls, nor the stale-while-revalidate refresh. The order in which those writes land against other requests is not modelled.
- Response headers, cloning, bodies as streams, `Content-Type` of the 408 answers and `Vary` handling are left out. A response is its status and body text.
- Logging (`console.log`, including the progress line every 20 successes) is left out. It has no effect on state.
- `self.skipWaiting()` and `self.clients.claim()` are left out. They change which pages the worker controls, not what it caches.
- `clients.matchAll()` is an input list of client names, taken after the deletion or the loop, as the source calls it.
- `Lifecycle.AddAll` is an all-or-nothing oracle, defined by the statuses `addAll` rejects. Its request de-duplication, the `Vary` check and its batching of puts are not modelled.
- The worker has no offline fallback document, no SKIP_WAITING handler and no push handler; unknown messages are ignored, and activation keeps no cache but the worker's own.
- `Lifecycle.HandleMessage`: a `modelId` that is a non-string truthy value (a number, say) is not modelled. The id is an optional string and counts as present when non-empty.
- `Lifecycle.Install` and `Lifecycle.CacheModel` state the final contents of the worker's cache, not the order of the individual puts, which no later read can observe.

=== FILE: classify.dfy ===
/**
 How the worker sorts paths (sw.js:110-124, 157-174, 219-244): the
 substring patterns that mark model resources, the suffix test for static
 scripts and stylesheets, the install-time core-file filter, and the fetch
 router that picks a caching strategy.
 */
module Classify {
  import opened Options
  import opened Strings
  import opened Paths

  /** Substrings that mark a Live2D model resource (`MODEL_PATTERNS`). */
  const MODEL_PATTERNS: seq<string> := [
    ".model3.json", ".moc3", ".physics3.json", ".motion3.json", ".pose3.json",
    ".userdata3.json", "/model/", "/textures/", "/motions/", ".png", ".ogg",
    ".wav", ".mp3"
  ]

  /** A model resource: some pattern of `MODEL_PATTERNS` occurs somewhere in the path. */
  predicate IsModelPath(path: string) {
    exists pattern | pattern in MODEL_PATTERNS :: Includes(path, pattern)
  }

  /** A script or stylesheet, by suffix. */
  predicate IsStaticPath(path: string) {
    EndsWith(path, ".js") || EndsWith(path, ".css")
  }

  /** Install's core-file filter: scripts, stylesheets, the root and the index page. */
  predicate IsCoreFile(url: string) {
    EndsWith(url, ".js") || EndsWith(url, ".css") || url == "/" || url == "/index.html"
  }

  /** The strategies a request can be handed to. */
  datatype Strategy = UseCacheFirst | UseStaleWhileRevalidate | UseNetworkFirst

  /** A request as the fetch handler sees it. URL parsing is not modelled:
      `origin` and `pathname` are the parsed parts of `url`. */
  datatype Request = Request(httpMethod: string, url: string, origin: string, pathname: string)

  /** The fetch handler's choice: `None` when the worker does not respond and
      the browser fetches as usual, else the strategy that answers. */
  function Route(workerOrigin: string, request: Request): (r: Option<Strategy>)
    ensures r.None? <==> request.httpMethod != "GET" || request.origin != workerOrigin
    ensures r == Some(UseCacheFirst) <==>
              request.httpMethod == "GET" && request.origin == workerOrigin && IsModelPath(request.pathname)
    ensures r == Some(UseStaleWhileRevalidate) <==>
              && request.httpMethod == "GET" && request.origin == workerOrigin
              && !IsModelPath(request.pathname) && IsStaticPath(request.pathname)
    ensures r == Some(UseNetworkFirst) <==>
              && request.httpMethod == "GET" && request.origin == workerOrigin
              && !IsModelPath(request.pathname) && !IsStaticPath(request.pathname)
  {
    if request.httpMethod != "GET" then None
    else if request.origin != workerOrigin then None
    else if IsModelPath(request.pathname) then Some(UseCacheFirst)
    else if IsStaticPath(request.pathname) then Some(UseStaleWhileRevalidate)
    else Some(UseNetworkFirst)
  }

  /** `Array.prototype.filter` over paths. */
  function Filter(paths: seq<string>, keep: string -> bool): (r: seq<string>)
    ensures forall p :: p in r <==> p in paths && keep(p)
    ensures |r| <= |paths|
  {
    if paths == [] then []
    else if keep(paths[0]) then [paths[0]] + Filter(paths[1..], keep)
    else Filter(paths[1..], keep)
  }

  lemma {:induction false} FilterAppend(a: seq<string>, b: seq<string>, keep: string -> bool)
    ensures Filter(a + b, keep) == Filter(a, keep) + Filter(b, keep)
  {
    if a == [] {
      assert a + b == b;
    } else {
      assert (a + b)[1..] == a[1..] + b;
      FilterAppend(a[1..], b, keep);
    }
  }

  lemma {:induction false} FilterKeepsAll(paths: seq<string>, keep: string -> bool)
    requires forall p | p in paths :: keep(p)
    ensures Filter(paths, keep) == paths
  {
    if paths != [] {
      FilterKeepsAll(paths[1..], keep);
    }
  }

  lemma {:induction false} FilterDropsAll(paths: seq<string>, keep: string -> bool)
    requires forall p | p in paths :: !keep(p)
    ensures Filter(paths, keep) == []
  {
    if paths != [] {
      FilterDropsAll(paths[1..], keep);
    }
  }

  /** A path under `/model/` ending in one of the generated suffixes is a
      model resource and not a core file. */
  lemma ModelSuffixPath(p: string, suffix: string)
    requires StartsWith(p, "/model/") && EndsWith(p, suffix)
    requires suffix in [".model3.json", ".moc3", ".physics3.json", ".png", ".motion3.json"]
    ensures IsModelPath(p) && !IsCoreFile(p)
  {
    StartsWithIncludes(p, "/model/");
    assert p[1] == 'm';
    var head := p[..|p| - |suffix|];
    assert p == head + suffix;
    EndsWithAppend(head, suffix, ".js");
    EndsWithAppend(head, suffix, ".css");
  }

  /** Every generated model path contains `/model/` and ends in a model
      suffix, so it is a model resource and never a core file. */
  lemma GeneratedPathsAreModelFiles(id: string)
    ensures forall p | p in ModelCachePaths(id) :: IsModelPath(p) && !IsCoreFile(p)
  {
    var paths := ModelCachePaths(id);
    var dir := ModelDir(id);
    assert StartsWith(MODEL_BASE_PATH, "/model/");
    forall k | 0 <= k < PATHS_PER_MODEL ensures IsModelPath(paths[k]) && !IsCoreFile(paths[k]) {
      var p := paths[k];
      assert StartsWith(p, "/model/") by {
        assert StartsWith(p, MODEL_BASE_PATH + id + "/");
      }
      if k == 0 {
        assert p == dir + id + ".model3.json";
        ModelSuffixPath(p, ".model3.json");
      } else if k == 1 {
        assert p == dir + id + ".moc3";
        ModelSuffixPath(p, ".moc3");
      } else if k == 2 {
        assert p == dir + id + ".physics3.json";
        ModelSuffixPath(p, ".physics3.json");
      } else if k < 3 + TEXTURE_SLOTS {
        assert p == TexturePath(id, k - 3);
        ModelSuffixPath(p, ".png");
      } else {
        assert p == MotionPath(id, COMMON_MOTIONS[k - 3 - TEXTURE_SLOTS]);
        ModelSuffixPath(p, ".motion3.json");
      }
    }
  }

  /** A script or stylesheet path `dir + file` matches no model pattern when
      the directory has no dot and no `o` or `x`, and the file name has no
      slash, no `3`, no `g` and does not contain `.wav`. */
  lemma CodePathNotModelPath(dir: string, file: string)
    requires '.' !in dir && 'o' !in dir && 'x' !in dir
    requires '/' !in file && '3' !in file && 'g' !in file && !Includes(file, ".wav")
    ensures !IsModelPath(dir + file)
  {
    forall p | p in MODEL_PATTERNS ensures !Includes(dir + file, p) {
      if Includes(dir + file, p) {
        if p[0] == '.' {
          FirstCharSplit(dir, file, p);
          if '3' in p { AbsentCharExcluded(file, p, '3'); }
          else if 'g' in p { AbsentCharExcluded(file, p, 'g'); }
        } else {
          LastCharSplit(dir, file, p);
          if 'o' in p { AbsentCharExcluded(dir, p, 'o'); }
          else { AbsentCharExcluded(dir, p, 'x'); }
        }
      }
    }
  }

  /** Neither page path matches a model pattern. */
  lemma PagePathsAreNotModelPaths()
    ensures !IsModelPath(CORE_PATHS[0]) && !IsModelPath(CORE_PATHS[1])
  {
    forall p | p in MODEL_PATTERNS ensures !Includes("/", p) && !Includes("/index.html", p) {
      TooLongExcluded("/", p);
      if '3' in p { AbsentCharExcluded("/index.html", p, '3'); }
      else if 'o' in p { AbsentCharExcluded("/index.html", p, 'o'); }
      else if 'r' in p { AbsentCharExcluded("/index.html", p, 'r'); }
      else if 'p' in p { AbsentCharExcluded("/index.html", p, 'p'); }
      else { AbsentCharExcluded("/index.html", p, 'w'); }
    }
  }

  /** A script or stylesheet file name without a `w` cannot contain `.wav`. */
  lemma PlainCodePathNotModelPath(dir: string, file: string)
    requires '.' !in dir && 'o' !in dir && 'x' !in dir
    requires '/' !in file && '3' !in file && 'g' !in file && 'w' !in file
    ensures !IsModelPath(dir + file)
  {
    AbsentCharExcluded(file, ".wav", 'w');
    CodePathNotModelPath(dir, file);
  }

  // One lemma per script and stylesheet path: none matches a model pattern.

  lemma PixiPathIsNotModelPath()
    ensures !IsModelPath(CORE_PATHS[2])
  {
    assert CORE_PATHS[2] == SCRIPT_DIR + "pixi.min.js";
    PlainCodePathNotModelPath(SCRIPT_DIR, "pixi.min.js");
  }

  lemma CorePathIsNotModelPath()
    ensures !IsModelPath(CORE_PATHS[3])
  {
    assert CORE_PATHS[3] == SCRIPT_DIR + "live2dcubismcore.min.js";
    PlainCodePathNotModelPath(SCRIPT_DIR, "live2dcubismcore.min.js");
  }

  lemma FrameworkPathIsNotModelPath()
    ensures !IsModelPath(CORE_PATHS[4])
  {
    assert CORE_PATHS[4] == SCRIPT_DIR + "live2dcubismframework.js";
    FrameworkFileHasNoWav();
    CodePathNotModelPath(SCRIPT_DIR, "live2dcubismframework.js");
  }

  lemma BindingPathIsNotModelPath()
    ensures !IsModelPath(CORE_PATHS[5])
  {
    assert CORE_PATHS[5] == SCRIPT_DIR + "live2dcubismpixi.js";
    PlainCodePathNotModelPath(SCRIPT_DIR, "live2dcubismpixi.js");
  }

  lemma ViewerPathIsNotModelPath()
    ensures !IsModelPath(CORE_PATHS[6])
  {
    assert CORE_PATHS[6] == SCRIPT_DIR + "l2d.js";
    PlainCodePathNotModelPath(SCRIPT_DIR, "l2d.js");
  }

  lemma MainPathIsNotModelPath()
    ensures !IsModelPath(CORE_PATHS[7])
  {
    assert CORE_PATHS[7] == SCRIPT_DIR + "main.js";
    PlainCodePathNotModelPath(SCRIPT_DIR, "main.js");
  }

  lemma StylePathIsNotModelPath()
    ensures !IsModelPath(CORE_PATHS[8])
  {
    assert CORE_PATHS[8] == STYLE_DIR + "bootstrap.min.css";
    PlainCodePathNotModelPath(STYLE_DIR, "bootstrap.min.css");
  }

  /** The one file name holding all of `.wav`'s letters still does not
      contain it: its only dot starts the `.js` suffix. */
  lemma FrameworkFileHasNoWav()
    ensures !Includes("live2dcubismframework.js", ".wav")
  {
    assert "live2dcubismframework.js" == "live2dcubismframework" + ".js";
    if Includes("live2dcubismframework.js", ".wav") {
      FirstCharSplit("live2dcubismframework", ".js", ".wav");
      TooLongExcluded(".js", ".wav");
    }
  }

  /** No core path matches a model pattern. */
  lemma CorePathsAreNotModelPaths()
    ensures forall p | p in CORE_PATHS :: !IsModelPath(p)
  {
    PagePathsAreNotModelPaths();
    PixiPathIsNotModelPath();
    CorePathIsNotModelPath();
    FrameworkPathIsNotModelPath();
    BindingPathIsNotModelPath();
    ViewerPathIsNotModelPath();
    MainPathIsNotModelPath();
    StylePathIsNotModelPath();
  }

  /** The seven scripts and the stylesheet are static paths; the two page
      paths are not. All nine are core files. */
  lemma CorePathKinds()
    ensures forall i | 2 <= i < |CORE_PATHS| :: IsStaticPath(CORE_PATHS[i])
    ensures !IsStaticPath(CORE_PATHS[0]) && !IsStaticPath(CORE_PATHS[1])
    ensures forall p | p in CORE_PATHS :: IsCoreFile(p)
  {
    forall i | 2 <= i < 8 ensures EndsWith(CORE_PATHS[i], ".js") {
      assert CORE_PATHS[i][|CORE_PATHS[i]| - 3..] == ".js";
    }
    assert CORE_PATHS[8][|CORE_PATHS[8]| - 4..] == ".css";
  }

  /** Every path of the model blocks is a model resource and not a core file. */
  lemma ModelBlocksAreModelFiles(ids: seq<string>)
    ensures forall p | p in ModelBlocks(ids) :: IsModelPath(p) && !IsCoreFile(p)
  {
    forall p | p in ModelBlocks(ids) ensures IsModelPath(p) && !IsCoreFile(p) {
      ModelBlocksMembers(ids, p);
      var id :| id in ids && p in ModelCachePaths(id);
      GeneratedPathsAreModelFiles(id);
    }
  }

  /** Install's two filters partition the candidate list: every candidate
      passes exactly one of them. */
  lemma InstallFiltersPartition(ids: seq<string>)
    ensures forall p | p in CachePaths(ids) :: IsCoreFile(p) <==> !IsModelPath(p)
  {
    CorePathKinds();
    CorePathsAreNotModelPaths();
    ModelBlocksAreModelFiles(ids);
    forall p | p in CachePaths(ids) ensures IsCoreFile(p) <==> !IsModelPath(p) {
      assert p in CORE_PATHS + ModelBlocks(ids);
    }
  }

  /** The core-file filter keeps exactly the nine core paths, in order. */
  lemma {:induction false} CoreFilter(ids: seq<string>)
    ensures Filter(CachePaths(ids), IsCoreFile) == CORE_PATHS
  {
    CorePathKinds();
    ModelBlocksAreModelFiles(ids);
    FilterAppend(CORE_PATHS, ModelBlocks(ids), IsCoreFile);
    FilterKeepsAll(CORE_PATHS, IsCoreFile);
    FilterDropsAll(ModelBlocks(ids), IsCoreFile);
    assert CORE_PATHS + [] == CORE_PATHS;
  }

  /** The model-file filter keeps exactly the model blocks, in order. */
  lemma {:induction false} ModelFilter(ids: seq<string>)
    ensures Filter(CachePaths(ids), IsModelPath) == ModelBlocks(ids)
  {
    CorePathsAreNotModelPaths();
    ModelBlocksAreModelFiles(ids);
    FilterAppend(CORE_PATHS, ModelBlocks(ids), IsModelPath);
    FilterDropsAll(CORE_PATHS, IsModelPath);
    FilterKeepsAll(ModelBlocks(ids), IsModelPath);
    assert [] + ModelBlocks(ids) == ModelBlocks(ids);
  }

  /** How the fetch handler routes a same-origin GET for a precached path:
      generated model paths to cache-first, scripts and the stylesheet to
      stale-while-revalidate, the two page paths to network-first. */
  lemma RouteOfCachedPath(workerOrigin: string, ids: seq<string>, request: Request)
    requires request.httpMethod == "GET" && request.origin == workerOrigin
    requires request.pathname in CachePaths(ids)
    ensures Route(workerOrigin, request) == Some(UseCacheFirst) <==> request.pathname in ModelBlocks(ids)
    ensures Route(workerOrigin, request) == Some(UseStaleWhileRevalidate) <==> request.pathname in CORE_PATHS[2..]
    ensures Route(workerOrigin, request) == Some(UseNetworkFirst) <==> request.pathname in CORE_PATHS[..2]
  {
    var p := request.pathname;
    CorePathKinds();
    CorePathsAreNotModelPaths();
    ModelBlocksAreModelFiles(ids);
    assert p in CORE_PATHS + ModelBlocks(ids);
    if p in CORE_PATHS[2..] {
      var i :| 0 <= i < |CORE_PATHS[2..]| && CORE_PATHS[2..][i] == p;
      assert IsStaticPath(CORE_PATHS[i + 2]);
    }
    if p in CORE_PATHS[..2] {
      assert p == CORE_PATHS[0] || p == CORE_PATHS[1];
    }
    if p in CORE_PATHS {
      var i :| 0 <= i < |CORE_PATHS| && CORE_PATHS[i] == p;
      if i < 2 { assert p in CORE_PATHS[..2]; } else { assert p == CORE_PATHS[2..][i - 2]; }
    }
  }
}

=== FILE: lifecycle.dfy ===
/**
 The worker's life-cycle and message handlers (sw.js:126-206, 322-370):
 `cacheResource` and the counting loop built on it, install-time
 precaching, activation's pruning of other caches, and the CLEAR_CACHES and
 CACHE_MODEL messages. The network is a fixed map from absolute URL to fetch
 outcome for the duration of one handler; clients are identified by name.
 */
module Lifecycle {
  import opened Options
  import opened Store
  import opened Paths
  import opened Classify
  import opened Strategies

  /** What the network answers for each absolute URL while a handler runs. */
  type Network = string -> FetchOutcome

  /** The absolute URL of a same-origin path, as `fetch` and `cache.put`
      resolve a path against the worker's location. */
  function Resolve(origin: string, path: string): string {
    origin + path
  }

  /** Every path of `paths` resolved against `origin`, in order. */
  function ResolveAll(origin: string, paths: seq<string>): (urls: seq<string>)
    ensures |urls| == |paths|
    ensures forall i | 0 <= i < |paths| :: urls[i] == Resolve(origin, paths[i])
  {
    seq(|paths|, i requires 0 <= i < |paths| => Resolve(origin, paths[i]))
  }

  /** Resolving keeps membership: each path's URL is among the resolved URLs. */
  lemma ResolvedMembers(origin: string, paths: seq<string>)
    ensures forall p | p in paths :: Resolve(origin, p) in ResolveAll(origin, paths)
  {
  }

  /** `cacheResource` succeeds on `url`: the fetch returned status 200. */
  predicate Succeeds(net: Network, url: string) {
    net(url).Fetched? && net(url).response.status == OK_STATUS
  }

  /** `cacheResource(cache, url)`: fetches, stores a 200 response under the
      worker's cache and reports whether it did; any other status and a thrown
      fetch both give `false` and store nothing. */
  function CacheResource(s: CacheStorage, url: string, outcome: FetchOutcome): (r: (bool, CacheStorage))
    ensures r.0 <==> outcome.Fetched? && outcome.response.status == OK_STATUS
    ensures r.0 ==> Lookup(r.1, CACHE_NAME, url) == Some(outcome.response)
    ensures !r.0 ==> r.1 == s
    ensures OnlyEntryChanged(s, r.1, url)
    ensures Valid(s) ==> Valid(r.1)
  {
    (outcome.Fetched? && outcome.response.status == OK_STATUS, StoreIfOk(s, url, outcome))
  }

  /** How many of `urls` the network answers with status 200, counted one by
      one, duplicates included. */
  function SuccessCount(urls: seq<string>, net: Network): (n: nat)
    ensures n <= |urls|
  {
    if urls == [] then 0
    else SuccessCount(urls[..|urls| - 1], net) + (if Succeeds(net, urls[|urls| - 1]) then 1 else 0)
  }

  /** The count reaches the total exactly when every URL succeeds. */
  lemma {:induction false} SuccessCountFull(urls: seq<string>, net: Network)
    ensures SuccessCount(urls, net) == |urls| <==> forall u | u in urls :: Succeeds(net, u)
  {
    if urls != [] {
      var init := urls[..|urls| - 1];
      SuccessCountFull(init, net);
      assert urls == init + [urls[|urls| - 1]];
      if forall u | u in init :: Succeeds(net, u) {
        if Succeeds(net, urls[|urls| - 1]) {
          forall u | u in urls ensures Succeeds(net, u) {
            if u != urls[|urls| - 1] { assert u in init; }
          }
        }
      } else {
        var u :| u in init && !Succeeds(net, u);
        assert u in urls;
      }
    }
  }

  /** The loop shared by install and CACHE_MODEL: `cacheResource` on every URL
      in order, counting successes. Afterwards the worker's cache holds the
      network's response for exactly the URLs that succeeded, on top of what
      it held before; no other cache changes. */
  method CacheEach(s: CacheStorage, urls: seq<string>, net: Network) returns (successCount: nat, s': CacheStorage)
    ensures successCount == SuccessCount(urls, net) <= |urls|
    ensures forall u :: Lookup(s', CACHE_NAME, u) ==
              if u in urls && Succeeds(net, u) then Some(net(u).response) else Lookup(s, CACHE_NAME, u)
    ensures forall n | n in s.caches :: n in s'.caches
    ensures forall n | n in s'.caches && n != CACHE_NAME :: n in s.caches && s'.caches[n] == s.caches[n]
    ensures CreationOrderKept(s, s', CACHE_NAME)
    ensures Valid(s) ==> Valid(s')
  {
    successCount, s' := 0, s;
    for i := 0 to |urls|
      invariant successCount == SuccessCount(urls[..i], net)
      invariant forall u :: Lookup(s', CACHE_NAME, u) ==
                  if u in urls[..i] && Succeeds(net, u) then Some(net(u).response) else Lookup(s, CACHE_NAME, u)
      invariant forall n | n in s.caches :: n in s'.caches
      invariant forall n | n in s'.caches && n != CACHE_NAME :: n in s.caches && s'.caches[n] == s.caches[n]
      invariant CreationOrderKept(s, s', CACHE_NAME)
      invariant Valid(s) ==> Valid(s')
    {
      var url := urls[i];
      assert urls[..i + 1] == urls[..i] + [url];
      assert urls[..i + 1][..i] == urls[..i];
      var r := CacheResource(s', url, net(url));
      if r.0 {
        successCount := successCount + 1;
      }
      s' := r.1;
    }
    assert urls[..|urls|] == urls;
  }

  /** The statuses `cache.addAll` accepts: 2xx except 206 Partial Content. */
  predicate AddAllAccepts(outcome: FetchOutcome) {
    outcome.Fetched? && 200 <= outcome.response.status <= 299 && outcome.response.status != 206
  }

  /** Stores the network's response for each URL in the worker's cache. */
  function PutAll(s: CacheStorage, urls: seq<string>, net: Network): (s': CacheStorage)
    requires forall u | u in urls :: net(u).Fetched?
    decreases urls
    ensures forall u :: Lookup(s', CACHE_NAME, u) ==
              if u in urls then Some(net(u).response) else Lookup(s, CACHE_NAME, u)
    ensures forall n | n in s.caches :: n in s'.caches
    ensures forall n | n in s'.caches && n != CACHE_NAME :: n in s.caches && s'.caches[n] == s.caches[n]
    ensures CreationOrderKept(s, s', CACHE_NAME)
    ensures Valid(s) ==> Valid(s')
  {
    if urls == [] then s
    else PutAll(Put(s, CACHE_NAME, urls[0], net(urls[0]).response), urls[1..], net)
  }

  /** `cache.addAll(urls)`, all or nothing: it stores every response when
      each fetch succeeds with an accepted status, and nothing otherwise. */
  function AddAll(s: CacheStorage, urls: seq<string>, net: Network): (r: (bool, CacheStorage))
    ensures r.0 <==> forall u | u in urls :: AddAllAccepts(net(u))
    ensures r.0 ==> forall u | u in urls :: Lookup(r.1, CACHE_NAME, u) == Some(net(u).response)
    ensures forall u | !r.0 || u !in urls :: Lookup(r.1, CACHE_NAME, u) == Lookup(s, CACHE_NAME, u)
    ensures forall n | n in s.caches :: n in r.1.caches
    ensures forall n | n in r.1.caches && n != CACHE_NAME :: n in s.caches && r.1.caches[n] == s.caches[n]
    ensures CreationOrderKept(s, r.1, CACHE_NAME)
    ensures Valid(s) ==> Valid(r.1)
  {
    if forall u | u in urls :: AddAllAccepts(net(u)) then (true, PutAll(s, urls, net))
    else (false, s)
  }

  /** What install reports: whether `addAll` stored the core files, and the
      model-file tally `successCount / modelFiles.length`. */
  datatype InstallReport = InstallReport(coreCached: bool, successCount: nat, total: nat)

  /** The install handler for a list of model ids (the worker's own list
      is `MODEL_IDS`): open the worker's cache, `addAll` the core files (a
      failure is logged and install goes on), then `cacheResource` every
      model file one at a time. */
  method Install(s: CacheStorage, origin: string, ids: seq<string>, net: Network)
    returns (report: InstallReport, s': CacheStorage)
    ensures report.total == |ModelBlocks(ids)| == PATHS_PER_MODEL * |ids|
    ensures report.successCount == SuccessCount(ResolveAll(origin, ModelBlocks(ids)), net) <= report.total
    ensures report.coreCached <==> forall p | p in CORE_PATHS :: AddAllAccepts(net(Resolve(origin, p)))
    ensures report.coreCached ==> forall p | p in CORE_PATHS ::
              Lookup(s', CACHE_NAME, Resolve(origin, p)) == Some(net(Resolve(origin, p)).response)
    ensures forall p | p in ModelBlocks(ids) && Succeeds(net, Resolve(origin, p)) ::
              Lookup(s', CACHE_NAME, Resolve(origin, p)) == Some(net(Resolve(origin, p)).response)
    ensures forall u :: Lookup(s', CACHE_NAME, u) ==
              if u in ResolveAll(origin, ModelBlocks(ids)) && Succeeds(net, u) then Some(net(u).response)
              else if report.coreCached && u in ResolveAll(origin, CORE_PATHS) then Some(net(u).response)
              else Lookup(s, CACHE_NAME, u)
    ensures CACHE_NAME in s'.caches
    ensures forall n | n in s.caches :: n in s'.caches
    ensures forall n | n in s'.caches && n != CACHE_NAME :: n in s.caches && s'.caches[n] == s.caches[n]
    ensures s'.names == Open(s, CACHE_NAME).names
    ensures Valid(s) ==> Valid(s')
  {
    var paths := CachePaths(ids);
    var created := Open(s, CACHE_NAME);
    var coreFiles := Filter(paths, IsCoreFile);
    CoreFilter(ids);
    var coreUrls := ResolveAll(origin, coreFiles);
    var core := AddAll(created, coreUrls, net);
    var modelFiles := Filter(paths, IsModelPath);
    ModelFilter(ids);
    var modelUrls := ResolveAll(origin, modelFiles);
    var successCount;
    successCount, s' := CacheEach(core.1, modelUrls, net);
    report := InstallReport(core.0, successCount, |modelFiles|);
    ResolvedMembers(origin, coreFiles);
    ResolvedMembers(origin, modelFiles);
    PrecacheLookup(s, core.1, s', coreUrls, core.0, modelUrls, net);
  }

  /** Install's two phases in sequence: what the counting loop stored wins,
      then what `addAll` stored, then what the worker's cache held before. */
  lemma PrecacheLookup(s: CacheStorage, mid: CacheStorage, s': CacheStorage, coreUrls: seq<string>,
                       coreCached: bool, modelUrls: seq<string>, net: Network)
    requires forall u | !coreCached || u !in coreUrls :: Lookup(mid, CACHE_NAME, u) == Lookup(s, CACHE_NAME, u)
    requires coreCached ==> forall u | u in coreUrls :: net(u).Fetched?
    requires coreCached ==> forall u | u in coreUrls :: Lookup(mid, CACHE_NAME, u) == Some(net(u).response)
    requires forall u :: Lookup(s', CACHE_NAME, u) ==
               if u in modelUrls && Succeeds(net, u) then Some(net(u).response) else Lookup(mid, CACHE_NAME, u)
    ensures forall u :: Lookup(s', CACHE_NAME, u) ==
              if u in modelUrls && Succeeds(net, u) then Some(net(u).response)
              else if coreCached && u in coreUrls then Some(net(u).response)
              else Lookup(s, CACHE_NAME, u)
  {
  }

  /** The worker's own list: 40 models of 27 candidate paths each. */
  lemma ModelFileTotal()
    ensures |ModelBlocks(MODEL_IDS)| == 1080
  {
  }

  /** The activate handler: every cache listed by `caches.keys()` other than
      the worker's own is deleted; the worker's cache, if present, is kept
      as it is. */
  method Activate(s: CacheStorage) returns (s': CacheStorage)
    ensures Valid(s) ==> forall n :: n in s'.caches <==> n in s.caches && n == CACHE_NAME
    ensures forall n | n in s'.caches :: n in s.caches && s'.caches[n] == s.caches[n]
    ensures CACHE_NAME in s.caches ==> CACHE_NAME in s'.caches
    ensures Valid(s) ==> Valid(s')
  {
    var cacheNames := s.names;
    s' := s;
    for i := 0 to |cacheNames|
      invariant forall n :: n in s'.caches <==> n in s.caches && (n == CACHE_NAME || n !in cacheNames[..i])
      invariant forall n | n in s'.caches :: s'.caches[n] == s.caches[n]
      invariant Valid(s) ==> Valid(s')
    {
      assert cacheNames[..i + 1] == cacheNames[..i] + [cacheNames[i]];
      if cacheNames[i] != CACHE_NAME {
        s' := Delete(s', cacheNames[i]).1;
      }
    }
    assert cacheNames[..|cacheNames|] == cacheNames;
  }

  /** What the worker posts to a client. */
  datatype Notice =
    | CachesCleared
    | ModelCached(modelId: string, successCount: nat, total: nat)

  /** One `client.postMessage(notice)`. */
  datatype Post = Post(client: string, notice: Notice)

  /** The same notice posted to every client, one post each, in client order. */
  function Broadcast(clients: seq<string>, notice: Notice): (posts: seq<Post>)
    ensures |posts| == |clients|
    ensures forall i | 0 <= i < |clients| :: posts[i] == Post(clients[i], notice)
  {
    if clients == [] then [] else [Post(clients[0], notice)] + Broadcast(clients[1..], notice)
  }

  /** How many of `posts` go to `client`. */
  function PostsTo(posts: seq<Post>, client: string): nat {
    if posts == [] then 0
    else (if posts[0].client == client then 1 else 0) + PostsTo(posts[1..], client)
  }

  /** Each client of a list without repeats gets exactly one post from a
      broadcast, and nobody else gets any. */
  lemma {:induction false} BroadcastReachesEachOnce(clients: seq<string>, notice: Notice, client: string)
    requires Distinct(clients)
    ensures PostsTo(Broadcast(clients, notice), client) == if client in clients then 1 else 0
  {
    if clients != [] {
      var posts := Broadcast(clients, notice);
      assert posts[1..] == Broadcast(clients[1..], notice);
      assert Distinct(clients[1..]) by {
        forall i, j | 0 <= i < j < |clients[1..]| ensures clients[1..][i] != clients[1..][j] {
          assert clients[1..][i] == clients[i + 1] && clients[1..][j] == clients[j + 1];
        }
      }
      BroadcastReachesEachOnce(clients[1..], notice, client);
      if clients[0] == client {
        assert client !in clients[1..];
      } else {
        assert client in clients <==> client in clients[1..] by {
          if client in clients {
            var j :| 0 <= j < |clients| && clients[j] == client;
            assert clients[1..][j - 1] == client;
          }
        }
      }
    }
  }

  /** The CLEAR_CACHES handler: deletes the worker's cache only, then tells
      every client `CACHES_CLEARED`, in client order. */
  function ClearCaches(s: CacheStorage, clients: seq<string>): (r: (CacheStorage, seq<Post>))
    ensures forall n :: n in r.0.caches <==> n in s.caches && n != CACHE_NAME
    ensures forall n | n in r.0.caches :: r.0.caches[n] == s.caches[n]
    ensures r.0.names == Without(s.names, CACHE_NAME)
    ensures Valid(s) ==> Valid(r.0)
    ensures |r.1| == |clients|
    ensures forall i | 0 <= i < |clients| :: r.1[i].client == clients[i] && r.1[i].notice == CachesCleared
  {
    (Delete(s, CACHE_NAME).1, Broadcast(clients, CachesCleared))
  }

  /** The CACHE_MODEL handler for a model id: opens the worker's cache, runs
      `cacheResource` over the model's 27 candidate paths and then tells every
      client how many of them were stored. */
  method CacheModel(s: CacheStorage, origin: string, modelId: string, clients: seq<string>, net: Network)
    returns (s': CacheStorage, posts: seq<Post>)
    ensures |posts| == |clients|
    ensures forall i | 0 <= i < |clients| :: posts[i].client == clients[i]
    ensures forall i | 0 <= i < |clients| :: posts[i].notice ==
              ModelCached(modelId, SuccessCount(ResolveAll(origin, ModelCachePaths(modelId)), net), PATHS_PER_MODEL)
    ensures forall i | 0 <= i < |clients| :: posts[i].notice.successCount <= posts[i].notice.total == 27
    ensures forall p | p in ModelCachePaths(modelId) && Succeeds(net, Resolve(origin, p)) ::
              Lookup(s', CACHE_NAME, Resolve(origin, p)) == Some(net(Resolve(origin, p)).response)
    ensures forall u :: Lookup(s', CACHE_NAME, u) ==
              if u in ResolveAll(origin, ModelCachePaths(modelId)) && Succeeds(net, u) then Some(net(u).response)
              else Lookup(s, CACHE_NAME, u)
    ensures CACHE_NAME in s'.caches
    ensures forall n | n in s.caches :: n in s'.caches
    ensures forall n | n in s'.caches && n != CACHE_NAME :: n in s.caches && s'.caches[n] == s.caches[n]
    ensures s'.names == Open(s, CACHE_NAME).names
    ensures Valid(s) ==> Valid(s')
  {
    var created := Open(s, CACHE_NAME);
    var modelPaths := ModelCachePaths(modelId);
    var urls := ResolveAll(origin, modelPaths);
    var successCount;
    successCount, s' := CacheEach(created, urls, net);
    ResolvedMembers(origin, modelPaths);
    posts := Broadcast(clients, ModelCached(modelId, successCount, |modelPaths|));
  }

  /** The fields of a message the handler looks at; `None` is a message with
      no data. */
  datatype MessageData = MessageData(kind: string, modelId: Option<string>)

  const CLEAR_CACHES: string := "CLEAR_CACHES"
  const CACHE_MODEL: string := "CACHE_MODEL"

  /** `data.modelId` is truthy: present and not the empty string. */
  predicate HasModelId(data: MessageData) {
    data.modelId.Some? && data.modelId.value != ""
  }

  /** The message handler. Only CLEAR_CACHES and CACHE_MODEL with a model id
      do anything; every other message, `SKIP_WAITING` included, is ignored. */
  method HandleMessage(s: CacheStorage, origin: string, data: Option<MessageData>, clients: seq<string>, net: Network)
    returns (s': CacheStorage, posts: seq<Post>)
    ensures data.None? || (data.value.kind != CLEAR_CACHES && data.value.kind != CACHE_MODEL) ==>
              s' == s && posts == []
    ensures data.Some? && data.value.kind == CACHE_MODEL && !HasModelId(data.value) ==> s' == s && posts == []
    ensures data.Some? && data.value.kind == CLEAR_CACHES ==>
              && (forall n :: n in s'.caches <==> n in s.caches && n != CACHE_NAME)
              && (forall n | n in s'.caches :: s'.caches[n] == s.caches[n])
              && s'.names == Without(s.names, CACHE_NAME)
              && |posts| == |clients|
              && (forall i | 0 <= i < |clients| :: posts[i] == Post(clients[i], CachesCleared))
    ensures data.Some? && data.value.kind == CACHE_MODEL && HasModelId(data.value) ==>
              && CACHE_NAME in s'.caches
              && (forall n | n in s.caches :: n in s'.caches)
              && (forall n | n in s'.caches && n != CACHE_NAME :: n in s.caches && s'.caches[n] == s.caches[n])
              && s'.names == Open(s, CACHE_NAME).names
              && (forall u :: Lookup(s', CACHE_NAME, u) ==
                    if u in ResolveAll(origin, ModelCachePaths(data.value.modelId.value)) && Succeeds(net, u)
                    then Some(net(u).response)
                    else Lookup(s, CACHE_NAME, u))
              && |posts| == |clients|
              && forall i | 0 <= i < |clients| ::
                   && posts[i].client == clients[i]
                   && posts[i].notice == ModelCached(data.value.modelId.value,
                        SuccessCount(ResolveAll(origin, ModelCachePaths(data.value.modelId.value)), net), PATHS_PER_MODEL)
                   && posts[i].notice.successCount <= posts[i].notice.total == 27
    ensures Valid(s) ==> Valid(s')
  {
    s', posts := s, [];
    if data.Some? && data.value.kind == CLEAR_CACHES {
      var r := ClearCaches(s, clients);
      s', posts := r.0, r.1;
    }
    if data.Some? && data.value.kind == CACHE_MODEL && HasModelId(data.value) {
      s', posts := CacheModel(s, origin, data.value.modelId.value, clients, net);
    }
  }
}

=== FILE: options.dfy ===
/** A value that may be absent: a cache miss, a request the worker does not
    answer, a promise that resolves to `undefined`. */
module Options {
  datatype Option<T> = None | Some(value: T)
}

=== FILE: paths.dfy ===
/**
 The worker's configuration and the candidate asset paths it derives from
 it (sw.js:1-107). Path generation is pure string building: for every model
 id it lists the model, moc and physics files, ten numbered texture slots
 and fourteen named motions, all below the model's own directory.
 */
module Paths {
  import opened Strings

  /** Bumped whenever the caching policy changes. */
  const CACHE_VERSION: string := "v1"

  /** The one cache namespace the worker writes to. */
  const CACHE_NAME: string := "live2d-cache-" + CACHE_VERSION

  /** Directory holding one sub-directory per model. */
  const MODEL_BASE_PATH: string := "/model/Azue Lane(JP)/"

  /** The models precached at install time, in the order they are processed. */
  const MODEL_IDS: seq<string> := [
    "tianlangxing_3", "bisimai_2", "huangjiafangzhou_3", "dafeng_2", "aidang_2",
    "aierdeliqi_4", "aierdeliqi_5", "aimierbeierding_2", "banrenma_2", "beierfasite_2",
    "biaoqiang", "biaoqiang_3", "chuixue_3", "deyizhi_3", "dujiaoshou_4",
    "dunkeerke_2", "huonululu_3", "huonululu_5", "kelifulan_3", "lafei",
    "lafei_4", "lingbo", "mingshi", "qibolin_2", "shengluyisi_2",
    "shengluyisi_3", "taiyuan_2", "tierbici_2", "xuefeng", "yichui_2",
    "z23", "z46_2", "genaisennao_2", "heitaizi_2", "ninghai_4",
    "pinghai_4", "sipeibojue_5", "xianghe_2", "xixuegui_4", "zhala_2"
  ]

  /** Number of numbered texture files tried per model (`texture_00` .. `texture_09`). */
  const TEXTURE_SLOTS: nat := 10

  /** Motion names tried for every model. */
  const COMMON_MOTIONS: seq<string> := [
    "idle", "main_1", "main_2", "main_3", "login", "home",
    "touch_body", "touch_head", "touch_special", "mission",
    "mission_complete", "complete", "mail", "wedding"
  ]

  /** Directory of the viewer's scripts. */
  const SCRIPT_DIR: string := "/live2d_3/js/"

  /** Directory of the viewer's stylesheets. */
  const STYLE_DIR: string := "/live2d_3/css/"

  /** Paths cached regardless of model: the page, the scripts, the stylesheet. */
  const CORE_PATHS: seq<string> := [
    "/",
    "/index.html",
    SCRIPT_DIR + "pixi.min.js",
    SCRIPT_DIR + "live2dcubismcore.min.js",
    SCRIPT_DIR + "live2dcubismframework.js",
    SCRIPT_DIR + "live2dcubismpixi.js",
    SCRIPT_DIR + "l2d.js",
    SCRIPT_DIR + "main.js",
    STYLE_DIR + "bootstrap.min.css"
  ]

  /** Number of candidate paths generated for one model. */
  const PATHS_PER_MODEL: nat := 3 + TEXTURE_SLOTS + |COMMON_MOTIONS|

  /** The decimal digit for `i`, as JavaScript prints a number below ten. */
  function Digit(i: nat): (c: char)
    requires i < 10
    ensures '0' <= c <= '9' && c as int - '0' as int == i
  {
    "0123456789"[i]
  }

  /** The model's directory: the base path, the id and a slash. */
  function ModelDir(id: string): string {
    MODEL_BASE_PATH + id + "/"
  }

  /** The model description, moc and physics files, in that order. */
  function ModelFiles(id: string): (paths: seq<string>)
    ensures |paths| == 3
  {
    [ ModelDir(id) + id + ".model3.json",
      ModelDir(id) + id + ".moc3",
      ModelDir(id) + id + ".physics3.json" ]
  }

  /** Texture slot `i`: the index is printed after a fixed leading zero. */
  function TexturePath(id: string, i: nat): string
    requires i < TEXTURE_SLOTS
  {
    ModelDir(id) + "textures/texture_0" + [Digit(i)] + ".png"
  }

  function MotionPath(id: string, motion: string): string {
    ModelDir(id) + "motions/" + motion + ".motion3.json"
  }

  /** The per-model candidate list, in generation order. */
  function ModelCachePaths(id: string): (paths: seq<string>)
    ensures |paths| == PATHS_PER_MODEL == 27
    ensures forall p | p in paths :: StartsWith(p, MODEL_BASE_PATH + id + "/")
    ensures paths[..3] == ModelFiles(id)
    ensures forall i | 0 <= i < TEXTURE_SLOTS :: paths[3 + i] == TexturePath(id, i)
    ensures forall j | 0 <= j < |COMMON_MOTIONS| :: paths[3 + TEXTURE_SLOTS + j] == MotionPath(id, COMMON_MOTIONS[j])
  {
    ModelFiles(id)
    + seq(TEXTURE_SLOTS, i requires 0 <= i < TEXTURE_SLOTS => TexturePath(id, i))
    + seq(|COMMON_MOTIONS|, j requires 0 <= j < |COMMON_MOTIONS| => MotionPath(id, COMMON_MOTIONS[j]))
  }

  /** The per-model lists of `ids`, concatenated in order. */
  function ModelBlocks(ids: seq<string>): (paths: seq<string>)
    ensures |paths| == PATHS_PER_MODEL * |ids|
  {
    if ids == [] then [] else ModelCachePaths(ids[0]) + ModelBlocks(ids[1..])
  }

  /** The candidate list for a list of model ids: the core paths, then each
      model's block in id order. */
  function CachePaths(ids: seq<string>): (paths: seq<string>)
    ensures |paths| == |CORE_PATHS| + PATHS_PER_MODEL * |ids|
    ensures paths[..|CORE_PATHS|] == CORE_PATHS
    ensures paths[|CORE_PATHS|..] == ModelBlocks(ids)
  {
    CORE_PATHS + ModelBlocks(ids)
  }

  /** Every candidate path the worker precaches (`generateAllCachePaths`). */
  function AllCachePaths(): (paths: seq<string>)
    ensures |paths| == 1089
  {
    CachePaths(MODEL_IDS)
  }

  /** Block `j` of the concatenation is model `ids[j]`'s list. */
  lemma {:induction false} ModelBlocksIndex(ids: seq<string>, j: nat, k: nat)
    requires j < |ids| && k < PATHS_PER_MODEL
    ensures ModelBlocks(ids)[PATHS_PER_MODEL * j + k] == ModelCachePaths(ids[j])[k]
  {
    if j > 0 {
      ModelBlocksIndex(ids[1..], j - 1, k);
    }
  }

  /** Every path of the concatenation comes from one of the models. */
  lemma {:induction false} ModelBlocksMembers(ids: seq<string>, p: string)
    requires p in ModelBlocks(ids)
    ensures exists id | id in ids :: p in ModelCachePaths(id)
  {
    if p !in ModelCachePaths(ids[0]) {
      ModelBlocksMembers(ids[1..], p);
    }
  }

  /** The fourteen motion names are pairwise different. */
  lemma MotionsDistinct()
    ensures forall a, b | 0 <= a < b < |COMMON_MOTIONS| :: COMMON_MOTIONS[a] != COMMON_MOTIONS[b]
  {
  }

  /** Two candidate paths of one model at different positions differ. */
  lemma ModelPathPairDistinct(id: string, a: nat, b: nat)
    requires a < b < PATHS_PER_MODEL
    ensures ModelCachePaths(id)[a] != ModelCachePaths(id)[b]
  {
    var paths := ModelCachePaths(id);
    var dir := ModelDir(id);
    var x, y := paths[a], paths[b];
    if a < 3 && b < 3 {
      assert |x| != |y|;
    } else if a < 3 && b < 3 + TEXTURE_SLOTS {
      assert x[|x| - 1] != y[|y| - 1];
    } else if a < 3 {
      if a == 1 {
        assert x[|x| - 1] != y[|y| - 1];
      } else {
        assert x[|x| - 12] != y[|y| - 12];
      }
    } else if b < 3 + TEXTURE_SLOTS {
      assert x[|dir| + 18] != y[|dir| + 18];
    } else if a < 3 + TEXTURE_SLOTS {
      assert x[|x| - 1] != y[|y| - 1];
    } else {
      MotionsDistinct();
      assert x[|dir| + 8..|x| - 13] == COMMON_MOTIONS[a - 13];
      assert y[|dir| + 8..|y| - 13] == COMMON_MOTIONS[b - 13];
    }
  }

  /** The 27 candidate paths of one model are pairwise different, so the
      per-model total counts 27 different resources. */
  lemma ModelPathsDistinct(id: string)
    ensures forall a, b | 0 <= a < b < PATHS_PER_MODEL :: ModelCachePaths(id)[a] != ModelCachePaths(id)[b]
  {
    forall a, b | 0 <= a < b < PATHS_PER_MODEL
      ensures ModelCachePaths(id)[a] != ModelCachePaths(id)[b]
    {
      ModelPathPairDistinct(id, a, b);
    }
  }
}

=== FILE: store.dfy ===
/**
 The browser's Cache Storage as the worker sees it: named caches
 ("namespaces"), each a map from request URL to a stored response. The
 names are kept in creation order because `caches.keys()` lists them in
 that order and `caches.match` searches them in that order.

 A response is abstracted to its status code and body; headers, cloning and
 streaming are not modelled.
 */
module Store {
  import opened Options

  /** An HTTP response reduced to what the worker inspects and returns. */
  datatype Response = Response(status: int, body: string)

  /** The contents of one named cache. */
  type Entries = map<string, Response>

  /** All caches of the origin: `names` in creation order, `caches` their contents. */
  datatype CacheStorage = CacheStorage(names: seq<string>, caches: map<string, Entries>)

  /** No name is listed twice. */
  ghost predicate Distinct(names: seq<string>) {
    forall i, j | 0 <= i < j < |names| :: names[i] != names[j]
  }

  /** The shape the browser maintains: each cache listed once, and the list
      names exactly the caches that exist. */
  ghost predicate Valid(s: CacheStorage) {
    && Distinct(s.names)
    && (forall n :: n in s.names <==> n in s.caches)
  }

  /** `caches.open(name)`: the named cache, created empty (and listed last) when
      it does not exist yet. */
  function Open(s: CacheStorage, name: string): (s': CacheStorage)
    ensures name in s'.caches
    ensures name in s.caches ==> s' == s
    ensures name !in s.caches ==> s'.caches == s.caches[name := map[]]
    ensures name !in s.caches ==> s'.names == s.names + [name]
    ensures Valid(s) ==> Valid(s')
  {
    if name in s.caches then s
    else CacheStorage(s.names + [name], s.caches[name := map[]])
  }

  /** `cache.match(url)` on one named cache. */
  function Lookup(s: CacheStorage, name: string, url: string): (r: Option<Response>)
    ensures r.Some? <==> name in s.caches && url in s.caches[name]
    ensures r.Some? ==> r.value == s.caches[name][url]
  {
    if name in s.caches && url in s.caches[name] then Some(s.caches[name][url]) else None
  }

  /** `cache.put` on the named cache, opened first: stores the response,
      overwriting any earlier one for that URL, and touches nothing else. */
  function Put(s: CacheStorage, name: string, url: string, response: Response): (s': CacheStorage)
    ensures Lookup(s', name, url) == Some(response)
    ensures s'.names == Open(s, name).names
    ensures s'.caches.Keys == s.caches.Keys + {name}
    ensures forall u | u != url :: Lookup(s', name, u) == Lookup(s, name, u)
    ensures forall n | n != name && n in s.caches :: s'.caches[n] == s.caches[n]
    ensures Valid(s) ==> Valid(s')
  {
    var created := Open(s, name);
    created.(caches := created.caches[name := created.caches[name][url := response]])
  }

  /** The creation order is as before, except that `name`, when it was
      missing, now exists and is listed last: the only change `caches.open`
      makes to it. */
  ghost predicate CreationOrderKept(s: CacheStorage, s': CacheStorage, name: string) {
    || s'.names == s.names
    || (name !in s.caches && name in s'.caches && s'.names == s.names + [name])
  }

  /** `names` with every occurrence of `name` taken out, order kept. */
  function Without(names: seq<string>, name: string): (r: seq<string>)
    ensures forall n :: n in r <==> n in names && n != name
    ensures Distinct(names) ==> Distinct(r)
    ensures name !in names ==> r == names
  {
    if names == [] then []
    else if names[0] == name then Without(names[1..], name)
    else
      var rest := Without(names[1..], name);
      assert Distinct(names) ==> names[0] !in rest;
      [names[0]] + rest
  }

  /** `caches.delete(name)`: whether the cache existed, and the storage
      without it. */
  function Delete(s: CacheStorage, name: string): (r: (bool, CacheStorage))
    ensures r.0 <==> name in s.caches
    ensures r.1.caches == s.caches - {name}
    ensures r.1.names == Without(s.names, name)
    ensures Valid(s) ==> Valid(r.1)
  {
    (name in s.caches, CacheStorage(Without(s.names, name), s.caches - {name}))
  }

  /** The first cache in `names` order that holds `url`, as `caches.match`
      searches them. */
  function MatchIn(names: seq<string>, caches: map<string, Entries>, url: string): (r: Option<Response>)
    ensures r.None? <==> forall n | n in names && n in caches :: url !in caches[n]
    ensures r.Some? ==> exists n | n in names && n in caches :: url in caches[n] && caches[n][url] == r.value
    ensures r.Some? ==> exists i | 0 <= i < |names| ::
              && names[i] in caches && url in caches[names[i]] && r.value == caches[names[i]][url]
              && forall j | 0 <= j < i :: names[j] !in caches || url !in caches[names[j]]
  {
    if names == [] then None
    else if names[0] in caches && url in caches[names[0]] then Some(caches[names[0]][url])
    else MatchIn(names[1..], caches, url)
  }

  /** `caches.match(url)`: a response for `url` from any cache, searching them in
      creation order. */
  function Match(s: CacheStorage, url: string): (r: Option<Response>)
    ensures Valid(s) ==> (r.None? <==> forall n | n in s.caches :: url !in s.caches[n])
    ensures r.Some? ==> exists n | n in s.caches :: url in s.caches[n] && s.caches[n][url] == r.value
    ensures r.Some? ==> exists i | 0 <= i < |s.names| ::
              && s.names[i] in s.caches && url in s.caches[s.names[i]] && r.value == s.caches[s.names[i]][url]
              && forall j | 0 <= j < i :: s.names[j] !in s.caches || url !in s.caches[s.names[j]]
  {
    MatchIn(s.names, s.caches, url)
  }

  /** Taking a name out of the creation order keeps the others in order:
      after `caches.delete(name)` the search finds exactly what it would
      have found had that cache held nothing. */
  lemma {:induction false} MatchInWithout(names: seq<string>, caches: map<string, Entries>, name: string, url: string)
    ensures MatchIn(Without(names, name), caches, url) == MatchIn(names, caches - {name}, url)
  {
    if names != [] {
      MatchInWithout(names[1..], caches, name, url);
      var rest := Without(names[1..], name);
      if names[0] == name {
        assert Without(names, name) == rest;
      } else {
        assert Without(names, name) == [names[0]] + rest;
        assert ([names[0]] + rest)[1..] == rest;
        assert (names[0] in caches) == (names[0] in caches - {name});
      }
    }
  }

  /** When `name` is the only listed cache holding `url`, the search in
      creation order finds that cache's entry. */
  lemma MatchInOnly(names: seq<string>, caches: map<string, Entries>, name: string, url: string)
    requires name in names && name in caches && url in caches[name]
    requires forall n | n in caches && n != name :: url !in caches[n]
    ensures MatchIn(names, caches, url) == Some(caches[name][url])
  {
  }

  /** Storing a URL that no cache held makes `caches.match` return exactly the
      stored response. */
  lemma MatchAfterPut(s: CacheStorage, name: string, url: string, response: Response)
    requires Valid(s)
    requires forall n | n in s.caches :: url !in s.caches[n]
    ensures Match(Put(s, name, url, response), url) == Some(response)
  {
  }
}

=== FILE: strategies.dfy ===
/**
 The three answering strategies of the fetch handler (sw.js:215-319) and the
 dispatcher that picks one. A call is modelled as a function of the storage
 before the request and of the one outcome the network gives for it; the
 result carries the response handed to `respondWith`, the storage once every
 write the call started has landed, and whether the network was asked.
 */
module Strategies {
  import opened Options
  import opened Store
  import opened Paths
  import opened Classify

  /** What `fetch(request)` gives: a response (of any status), or a thrown error. */
  datatype FetchOutcome = Fetched(response: Response) | Failed

  /** The outcome of one handled request. `response == None` is the
      `undefined` the stale-while-revalidate promise can resolve to. */
  datatype Handled = Handled(response: Option<Response>, storage: CacheStorage, networkUsed: bool)

  /** The only status the strategies ever store. */
  const OK_STATUS: int := 200

  /** The status of both synthetic failure responses. */
  const TIMEOUT_STATUS: int := 408

  /** Cache-first's answer when the resource is neither cached nor reachable. */
  const MODEL_UNAVAILABLE: Response := Response(TIMEOUT_STATUS, "模型资源加载失败，请检查网络连接")

  /** Network-first's answer when the network fails and no cache has the resource. */
  const NETWORK_UNAVAILABLE: Response := Response(TIMEOUT_STATUS, "网络请求失败，且缓存中没有该资源")

  /** Some cache of the origin holds `url`. */
  ghost predicate Cached(s: CacheStorage, url: string) {
    exists n | n in s.caches :: url in s.caches[n]
  }

  /** Nothing changed except possibly the entry for `url` in the worker's cache. */
  ghost predicate OnlyEntryChanged(s: CacheStorage, s': CacheStorage, url: string) {
    && (forall n | n in s.caches :: n in s'.caches)
    && (forall n | n in s'.caches && n != CACHE_NAME :: n in s.caches && s'.caches[n] == s.caches[n])
    && (forall u | u != url :: Lookup(s', CACHE_NAME, u) == Lookup(s, CACHE_NAME, u))
    && CreationOrderKept(s, s', CACHE_NAME)
  }

  /** The write every strategy performs after a successful fetch: store the
      response under the worker's cache exactly when its status is 200. */
  function StoreIfOk(s: CacheStorage, url: string, outcome: FetchOutcome): (s': CacheStorage)
    ensures outcome.Fetched? && outcome.response.status == OK_STATUS ==>
              Lookup(s', CACHE_NAME, url) == Some(outcome.response)
    ensures !(outcome.Fetched? && outcome.response.status == OK_STATUS) ==> s' == s
    ensures OnlyEntryChanged(s, s', url)
    ensures Valid(s) ==> Valid(s')
  {
    if outcome.Fetched? && outcome.response.status == OK_STATUS then
      Put(s, CACHE_NAME, url, outcome.response)
    else s
  }

  /** `cacheFirstStrategy`: a response from any cache wins and the network is
      not asked; on a miss the network's response is returned as it is (and
      stored when its status is 200); a thrown fetch gives the 408 answer. */
  function CacheFirst(s: CacheStorage, url: string, outcome: FetchOutcome): (r: Handled)
    ensures r.response.Some?
    ensures Valid(s) && Cached(s, url) ==>
              && !r.networkUsed && r.storage == s
              && exists n | n in s.caches :: url in s.caches[n] && s.caches[n][url] == r.response.value
    ensures Match(s, url).Some? ==> r == Handled(Match(s, url), s, false)
    ensures Valid(s) && !Cached(s, url) ==> r.networkUsed
    ensures Valid(s) && !Cached(s, url) && outcome.Fetched? ==>
              && r.response == Some(outcome.response)
              && (Lookup(r.storage, CACHE_NAME, url).Some? <==> outcome.response.status == OK_STATUS)
              && (outcome.response.status == OK_STATUS ==> Lookup(r.storage, CACHE_NAME, url) == r.response)
              && (outcome.response.status != OK_STATUS ==> r.storage == s)
    ensures Valid(s) && !Cached(s, url) && outcome.Failed? ==>
              r.response == Some(MODEL_UNAVAILABLE) && r.storage == s
    ensures OnlyEntryChanged(s, r.storage, url)
    ensures Valid(s) ==> Valid(r.storage)
  {
    match Match(s, url)
    case Some(cached) => Handled(Some(cached), s, false)
    case None =>
      match outcome
      case Fetched(response) => Handled(Some(response), StoreIfOk(s, url, outcome), true)
      case Failed => Handled(Some(MODEL_UNAVAILABLE), s, true)
  }

  /** `networkFirstStrategy`: the network is always asked first and its
      response returned (and stored when its status is 200); only a thrown
      fetch falls back to any cache, and then to the 408 answer. */
  function NetworkFirst(s: CacheStorage, url: string, outcome: FetchOutcome): (r: Handled)
    ensures r.networkUsed && r.response.Some?
    ensures outcome.Fetched? ==>
              && r.response == Some(outcome.response)
              && (outcome.response.status == OK_STATUS ==> Lookup(r.storage, CACHE_NAME, url) == r.response)
              && (outcome.response.status != OK_STATUS ==> r.storage == s)
    ensures outcome.Failed? ==> r.storage == s
    ensures outcome.Failed? && Cached(s, url) && Valid(s) ==>
              exists n | n in s.caches :: url in s.caches[n] && s.caches[n][url] == r.response.value
    ensures outcome.Failed? && Match(s, url).Some? ==> r.response == Match(s, url)
    ensures outcome.Failed? && !Cached(s, url) ==> r.response == Some(NETWORK_UNAVAILABLE)
    ensures OnlyEntryChanged(s, r.storage, url)
    ensures Valid(s) ==> Valid(r.storage)
  {
    match outcome
    case Fetched(response) => Handled(Some(response), StoreIfOk(s, url, outcome), true)
    case Failed =>
      match Match(s, url)
      case Some(cached) => Handled(Some(cached), s, true)
      case None => Handled(Some(NETWORK_UNAVAILABLE), s, true)
  }

  /** `staleWhileRevalidateStrategy`: opens (and so creates) the worker's
      cache, reads only that cache, always asks the network and stores a 200
      response. It answers with the cached entry, else the network's
      response, else nothing when the fetch threw. */
  function StaleWhileRevalidate(s: CacheStorage, url: string, outcome: FetchOutcome): (r: Handled)
    ensures r.networkUsed
    ensures CACHE_NAME in r.storage.caches
    ensures r.storage.caches.Keys == s.caches.Keys + {CACHE_NAME}
    ensures r.storage.names == Open(s, CACHE_NAME).names
    ensures Lookup(s, CACHE_NAME, url).Some? ==> r.response == Lookup(s, CACHE_NAME, url)
    ensures Lookup(s, CACHE_NAME, url).None? && outcome.Fetched? ==> r.response == Some(outcome.response)
    ensures Lookup(s, CACHE_NAME, url).None? && outcome.Failed? ==> r.response.None?
    ensures outcome.Fetched? && outcome.response.status == OK_STATUS ==>
              Lookup(r.storage, CACHE_NAME, url) == Some(outcome.response)
    ensures !(outcome.Fetched? && outcome.response.status == OK_STATUS) ==>
              forall n, u :: Lookup(r.storage, n, u) == Lookup(s, n, u)
    ensures OnlyEntryChanged(s, r.storage, url)
    ensures Valid(s) ==> Valid(r.storage)
  {
    var created := Open(s, CACHE_NAME);
    var cached := Lookup(created, CACHE_NAME, url);
    var network := if outcome.Fetched? then Some(outcome.response) else None;
    Handled(if cached.Some? then cached else network, StoreIfOk(created, url, outcome), true)
  }

  /** The fetch handler: `None` when it does not call `respondWith`, otherwise
      the routed strategy's outcome for the request's URL. */
  function HandleFetch(workerOrigin: string, s: CacheStorage, request: Request, outcome: FetchOutcome): (r: Option<Handled>)
    ensures r.None? <==> request.httpMethod != "GET" || request.origin != workerOrigin
    ensures Route(workerOrigin, request) == Some(UseCacheFirst) ==> r == Some(CacheFirst(s, request.url, outcome))
    ensures Route(workerOrigin, request) == Some(UseStaleWhileRevalidate) ==>
              r == Some(StaleWhileRevalidate(s, request.url, outcome))
    ensures Route(workerOrigin, request) == Some(UseNetworkFirst) ==> r == Some(NetworkFirst(s, request.url, outcome))
    ensures r.Some? ==> OnlyEntryChanged(s, r.value.storage, request.url)
    ensures r.Some? && Lookup(r.value.storage, CACHE_NAME, request.url) != Lookup(s, CACHE_NAME, request.url) ==>
              && outcome.Fetched? && outcome.response.status == OK_STATUS
              && Lookup(r.value.storage, CACHE_NAME, request.url) == Some(outcome.response)
    ensures r.Some? && Valid(s) ==> Valid(r.value.storage)
  {
    match Route(workerOrigin, request)
    case None => None
    case Some(UseCacheFirst) => Some(CacheFirst(s, request.url, outcome))
    case Some(UseStaleWhileRevalidate) => Some(StaleWhileRevalidate(s, request.url, outcome))
    case Some(UseNetworkFirst) => Some(NetworkFirst(s, request.url, outcome))
  }

  /** Once cache-first has answered from a cache or stored a 200 response, the
      next request for the same URL is a hit: the same response, no network
      use, whatever the network does then. */
  lemma CacheFirstThenHit(s: CacheStorage, url: string, first: FetchOutcome, second: FetchOutcome)
    requires Valid(s)
    requires Cached(s, url) || (first.Fetched? && first.response.status == OK_STATUS)
    ensures CacheFirst(CacheFirst(s, url, first).storage, url, second)
              == Handled(CacheFirst(s, url, first).response, CacheFirst(s, url, first).storage, false)
  {
  }

  /** Stale-while-revalidate answers with the old copy but stores the fresh
      200 response, which the next request for the URL is answered with. */
  lemma RevalidatedCopyServedNext(s: CacheStorage, url: string, revalidated: Response, second: FetchOutcome)
    requires revalidated.status == OK_STATUS
    ensures StaleWhileRevalidate(StaleWhileRevalidate(s, url, Fetched(revalidated)).storage, url, second).response
              == Some(revalidated)
  {
  }

  /** A 200 response network-first stored is what it falls back to when the
      network later fails, provided no other cache holds the URL (as after
      activation, which leaves only the worker's cache). */
  lemma NetworkFirstFallsBackToStored(s: CacheStorage, url: string, response: Response)
    requires Valid(s)
    requires response.status == OK_STATUS
    requires forall n | n in s.caches && n != CACHE_NAME :: url !in s.caches[n]
    ensures NetworkFirst(NetworkFirst(s, url, Fetched(response)).storage, url, Failed).response == Some(response)
  {
  }

  /** Every stored response has status 200. */
  ghost predicate OnlyOkStored(s: CacheStorage) {
    forall n, u | n in s.caches && u in s.caches[n] :: s.caches[n][u].status == OK_STATUS
  }

  /** The fetch handler never stores anything but a 200 response, so a storage
      holding only 200 responses keeps holding only 200 responses. */
  lemma HandleFetchKeepsOnlyOk(workerOrigin: string, s: CacheStorage, request: Request, outcome: FetchOutcome)
    requires OnlyOkStored(s)
    ensures HandleFetch(workerOrigin, s, request, outcome).Some? ==>
              OnlyOkStored(HandleFetch(workerOrigin, s, request, outcome).value.storage)
  {
  }
}

=== FILE: strings.dfy ===
/**
 The three string tests the worker uses to look at URL paths: JavaScript's
 `String.prototype.startsWith`, `endsWith` and `includes`, all case-sensitive
 and character by character. A `char` here is one Unicode scalar value, where
 JavaScript compares UTF-16 code units; the two agree on the ASCII paths the
 worker builds and matches. The lemmas are the small facts the
 classification proofs are built from.
 */
module Strings {

  /** `s` begins with `p`. */
  predicate StartsWith(s: string, p: string) {
    |p| <= |s| && s[..|p|] == p
  }

  /** `s` ends with `p`. */
  predicate EndsWith(s: string, p: string) {
    |p| <= |s| && s[|s| - |p|..] == p
  }

  /** `p` occurs in `s` starting at index `i`. */
  predicate OccursAt(s: string, p: string, i: nat) {
    i + |p| <= |s| && s[i..i + |p|] == p
  }

  /** `p` occurs somewhere in `s`. */
  predicate Includes(s: string, p: string) {
    exists i: nat | i <= |s| :: OccursAt(s, p, i)
  }

  /** A prefix is an occurrence at index 0. */
  lemma StartsWithIncludes(s: string, p: string)
    requires StartsWith(s, p)
    ensures Includes(s, p)
  {
    assert OccursAt(s, p, 0);
  }

  /** A pattern longer than the string cannot occur in it. */
  lemma TooLongExcluded(s: string, p: string)
    requires |s| < |p|
    ensures !Includes(s, p)
  {
  }

  /** A pattern holding a character the string lacks cannot occur in it. */
  lemma AbsentCharExcluded(s: string, p: string, c: char)
    requires c in p && c !in s
    ensures !Includes(s, p)
  {
  }

  /** When the pattern's first character is missing from `a`, an occurrence in
      `a + b` lies wholly inside `b`. */
  lemma FirstCharSplit(a: string, b: string, p: string)
    requires |p| > 0 && p[0] !in a
    requires Includes(a + b, p)
    ensures Includes(b, p)
  {
    var i: nat :| i <= |a + b| && OccursAt(a + b, p, i);
    assert (a + b)[i..i + |p|][0] == (a + b)[i];
    assert i >= |a|;
    assert b[i - |a|..i - |a| + |p|] == (a + b)[i..i + |p|];
    assert OccursAt(b, p, i - |a|);
  }

  /** When the pattern's last character is missing from `b`, an occurrence in
      `a + b` lies wholly inside `a`. */
  lemma LastCharSplit(a: string, b: string, p: string)
    requires |p| > 0 && p[|p| - 1] !in b
    requires Includes(a + b, p)
    ensures Includes(a, p)
  {
    var i: nat :| i <= |a + b| && OccursAt(a + b, p, i);
    assert (a + b)[i..i + |p|][|p| - 1] == (a + b)[i + |p| - 1];
    assert i + |p| <= |a|;
    assert a[i..i + |p|] == (a + b)[i..i + |p|];
    assert OccursAt(a, p, i);
  }

  /** Suffix tests only look at the tail: a suffix no longer than `b` is a
      suffix of `a + b` exactly when it is one of `b`. */
  lemma EndsWithAppend(a: string, b: string, p: string)
    requires |p| <= |b|
    ensures EndsWith(a + b, p) <==> EndsWith(b, p)
  {
  }

}
